=== FILE: README.md ===
# Model usage tracker, in Dafny

This project models `ModelUsageTracker` from `usage_tracker.py`. It is a
LangChain callback handler that counts API calls and tokens per model across a
multi-agent run. Its state is `usage_data`, an insertion-ordered dict from model
name to `{numApiCalls, totalTokens}`, plus the `call_logs` list and the
`_current_model` slot. Three callbacks change that state:

- `on_llm_start` resolves a model name through six lookups and bumps that model's call count.
- `on_llm_end` resolves a token count through a fixed cascade of sources and adds it to one model's total.
- `reset` clears everything.

`get_usage_report` and `get_summary` read the state back.

The tracker is an immutable value here, and every callback is a pure transition.
The LangChain payloads (`serialized`, `kwargs`, `llm_output`, `generation_info`)
are maps from strings to a JSON-like `Value`. Python's semantics are written out
for the operations the tracker uses:

- truthiness, including empty dict, empty string and 0 counting as false;
- `== 0`, where `False == 0` holds and `None == 0` does not;
- `+` on numbers, strings and lists;
- `dict.get`, which raises `AttributeError` on a non-dict;
- `x[-1]`;
- using a value as a dict key, where `True` and `1` are the same key and lists and dicts are unhashable.

A callback that raises returns the partial state it leaves behind together with
the exception. LangChain's callback manager swallows that exception, so a run of
events carries on from that partial state.

Files:

- `wrappers.dfy`: `Option` and `Result`.
- `pyvalue.dfy`: `Value` and the Python operations above.
- `model_name.dfy`: `_extract_model_name` and a reference first-truthy search over the six lookups.
- `token_usage.dfy`: the inputs (`Generation`, `LlmResult`) and everything `on_llm_end` computes before it touches the tracker.
- `token_precedence.dfy`: the precedence of the token sources, which model gets credited, and the lower bound on the tokens added.
- `tracker.dfy`: the state, `_ensure_model_entry`, `Start`/`End`/`Reset`, and runs of events.
- `ledger.dfy`: the invariant that ties the counters to the event log, and its preservation.
- `summary.dfy`: `get_usage_report`, `get_summary` (as a loop) and the lemma that its totals equal the log's totals.

`GetSummary` requires `Valid`: every key of `usage` is listed exactly once in
`order`, the model's stand-in for the dict's insertion order. `Ledger.RunConsistent`
shows that every tracker reachable through callbacks satisfies it.

## Model

| member | source | states |
|---|---|---|
| `ModelName.ExtractModelName` | usage_tracker.py:295-323 | a name that is found is always truthy, so a string name is never empty; `"unknown_model"` is the default |
| `ModelName.FirstTruthy` | usage_tracker.py:280-293 | the reference search returns the first lookup that raised or found a truthy value, and the default only when every lookup found a falsy value |
| `ModelName.ExtractIsFirstTruthy` | usage_tracker.py:295-323 | the nested-if lookup equals the first-truthy search over the six lookups, in the order `serialized.kwargs.model`, `serialized.kwargs.model_name`, `serialized.name`, `serialized.id[-1]`, `kwargs.invocation_params.model`, `kwargs.model_name` |
| `TokenUsage.FromLlmOutput` | usage_tracker.py:178-213 | the `llm_output` stage credits `llm_output["model_name"]` when present, else the current model if truthy, else `"unknown_model"`; Google `usage_metadata` is tried first and its error or non-zero count decides; only when it is falsy or sums to zero is a truthy OpenAI `token_usage` consulted, whose error or count then decides; with neither (or `llm_output` absent or empty) the count is zero |
| `TokenUsage.FlattenIndex` | usage_tracker.py:217-218 | the generations are visited prompt by prompt in order, and within each prompt in order: generation `j` of prompt `p` sits after all generations of the earlier prompts |
| `TokenUsage.Estimate` | usage_tracker.py:240-249 | the amount is never 0; an existing non-zero count is kept; otherwise it is 3 × (text length div 4), or 500 when that is 0 |
| `TokenUsage.ResolveEnd` | usage_tracker.py:177-250 | when `on_llm_end` does not raise, the token amount it settles on is never 0 |
| `TokenPrecedence.ScanSettled` | usage_tracker.py:215-235 | once the running total is non-zero, the generation loop only gathers text: name and count stay as they were |
| `TokenPrecedence.ScanUndecided` | usage_tracker.py:215-235 | while no generation's usage metadata raises or sums to non-zero, the loop ends at zero with all the text gathered, and the credited name is the `model_name` of the last generation whose info names one (`LastName`) |
| `TokenPrecedence.ScanDecided` | usage_tracker.py:225-235 | the first generation whose usage metadata raises or sums to non-zero fixes the outcome: it raises that same exception, or it fixes the count and credits `LastName`: its own info's model if it names one, else the last earlier generation's that did |
| `TokenPrecedence.GooglePrecedence` | usage_tracker.py:188-202 | a non-zero count from Google `usage_metadata` is the amount added, whatever the OpenAI usage and the generations hold |
| `TokenPrecedence.OpenAiPrecedence` | usage_tracker.py:204-213 | OpenAI `token_usage` is consulted only when the Google count is absent or zero, and a non-zero count from it then wins over the generations |
| `TokenPrecedence.GenerationPrecedence` | usage_tracker.py:215-235 | when `llm_output` yields no tokens, the first deciding generation's `usage_metadata` sets the amount or `on_llm_end` raises its exception, and the credited model is `LastName`: the deciding generation's info model if present, else the last earlier one named |
| `TokenPrecedence.TextEstimate` | usage_tracker.py:237-249 | with no token metadata anywhere, the amount is 3 × (length of the concatenated text div 4), or 500 when that is 0 |
| `TokenPrecedence.ScanCreditsLastName` | usage_tracker.py:225-229 | from a zero count, the generation loop credits the `model_name` of the last generation whose info names one, looking no further than the first generation whose usage metadata decides the count |
| `TokenPrecedence.CreditedName` | usage_tracker.py:225-229 | when `llm_output` yields no tokens, `on_llm_end` credits `LastName` starting from the `llm_output` name (or the current model, or `"unknown_model"`) |
| `TokenPrecedence.NamingGenerationWithoutUsage` | usage_tracker.py:225-249 | with no `llm_output`, a generation whose info names "A" but has no usage metadata credits the 12-character text's estimate of 9 tokens to "A" |
| `TokenPrecedence.ScanKeepsName` | usage_tracker.py:225-229 | only a generation whose `generation_info` has `model_name` can change the credited model |
| `TokenPrecedence.NameFromOutput` | usage_tracker.py:179-186 | unless a generation's info names a model, the credited model is the current model (or `"unknown_model"`), overridden by `llm_output["model_name"]` |
| `TokenPrecedence.PositiveTokens` | usage_tracker.py:237-249 | when every count in the response is non-negative, a numeric amount added is at least 1 |
| `Tracker.EnsureEntry` | usage_tracker.py:107-111 | inserts `{0, 0}` (appended to the insertion order) only for an unseen model; an existing entry and all others are untouched; log and current model unchanged |
| `Tracker.Start` | usage_tracker.py:138-156 | sets the current model to the extracted name; raises that model's calls by exactly 1; leaves its tokens and every other entry alone; keeps the insertion order, appending only a model it has not seen; appends one start log whose call number is the new count; a lookup error changes nothing; an unhashable name still sets the current model |
| `Tracker.End` | usage_tracker.py:177-265 | never changes any call count or the current model; only the credited model's token total grows, by the resolved amount, with its entry created if unseen and the insertion order otherwise kept; appends one end log whose running total is the new total; a non-numeric amount leaves the entry created and raises |
| `Tracker.Reset` | usage_tracker.py:402-405 | usage and log are empty and the current model is unset |
| `Ledger.StartKeepsConsistent` | usage_tracker.py:145-156 | `on_llm_start` keeps every call counter equal to that model's start-log count, and logs the running call number |
| `Ledger.EndKeepsConsistent` | usage_tracker.py:252-265 | `on_llm_end` keeps every token total equal to the sum of that model's end-log amounts, including on its error paths |
| `Ledger.RunConsistent` | usage_tracker.py:84-94 | after any sequence of callbacks, each counter is the tally of the log entries for its model, every logged model has an entry, and every logged running figure is the tally up to that entry |
| `Ledger.EndCreditsStartedModel` | usage_tracker.py:179-186 | an `on_llm_end` whose response names no model credits its tokens to the model the preceding `on_llm_start` counted |
| `Summary.Report` | usage_tracker.py:345-347 | the report lists exactly the tracked models, and on a consistent tracker each entry is what the log records for that model |
| `Summary.GetSummary` | usage_tracker.py:417-445 | an empty report yields only the "No usage data recorded yet." line; otherwise one block per model in insertion order, then TOTAL lines holding the sums over all models |
| `Summary.TotalsMatchLog` | usage_tracker.py:425-441 | on a consistent tracker, TOTAL API Calls is the number of start-log entries and TOTAL Tokens the sum of the end-log amounts |
| `Summary.RunTotalsMatchLog` | usage_tracker.py:436-441 | after any run of callbacks, the summary's totals agree with the log |

## Left out

- The `threading.Lock`: the model is single-threaded, and each callback is one atomic transition.
- Timestamps in `call_logs`: `datetime.now()` is a clock read. Log entries keep every other field, with the model as its dict key and a bool amount as its integer (both noted below).
- `print` output.
- `get_usage_report_json` and `save_report`: these are JSON serialisation and file I/O.
- Rendering of the summary lines to text. The lines are a datatype carrying the numbers and model keys. The 50-character rules and the `"\n".join` are not modelled.
- `get_detailed_logs`: it returns a copy of the log, which is the `logs` field itself.
- The `BaseCallbackHandler` base class, the `global_tracker` singleton, `get_tracker` and `get_callbacks`: framework wiring.
- Floats: `Value` has no float, so `0.0 == 0` and float token counts are not modelled.
- Payload dict keys are strings only, so `d[-1]` on a dict is always a `KeyError`.
- `message.content` is a string. `str()` of a list-valued content is not modelled.
- `Tracker.End`: the log records the integer a bool amount stands for (1 for `True`), where Python would record the bool itself.
- Python keeps the first-inserted key object of a dict entry, so `True` and `1` print differently. `Key` folds them together, which is faithful to lookup but not to printing. The `model` field of every log entry is that folded `Key` too, so a model named `True` is logged as `1` where Python logs `True`.

=== FILE: ledger.dfy ===
/** The event log as a ledger: every counter in `usage_data` equals what the
    `call_logs` entries for that model add up to, and every logged running
    figure (`api_call_number`, `total_tokens_so_far`) is the tally up to that
    entry. Every reachable tracker keeps this. */
module Ledger {
  import opened Wrappers
  import opened PyValue
  import opened ModelName
  import opened TokenUsage
  import opened Tracker
  import opened TokenPrecedence

  /** Which counter a log entry feeds, and by how much. */
  function CounterOf(e: LogEntry): Counter {
    if e.StartLog? then Calls else Tokens
  }

  function Delta(c: Counter, e: LogEntry): int {
    if CounterOf(e) != c then 0
    else if e.StartLog? then 1
    else e.tokensThisCall
  }

  /** The running figure an entry records. */
  function Running(e: LogEntry): int {
    if e.StartLog? then e.apiCallNumber else e.totalTokensSoFar
  }

  /** What the log entries for model `k` add up to. */
  function Tally(c: Counter, logs: seq<LogEntry>, k: Key): int {
    if |logs| == 0 then 0
    else
      var e := logs[|logs| - 1];
      Tally(c, logs[..|logs| - 1], k) + (if e.model == k then Delta(c, e) else 0)
  }

  /** What all log entries add up to, whatever their model. */
  function GrandTally(c: Counter, logs: seq<LogEntry>): int {
    if |logs| == 0 then 0 else GrandTally(c, logs[..|logs| - 1]) + Delta(c, logs[|logs| - 1])
  }

  ghost predicate Consistent(t: Tracker) {
    && Valid(t)
    && (forall c, k :: Count(c, t.usage, k) == Tally(c, t.logs, k))
    && (forall i :: 0 <= i < |t.logs| ==> t.logs[i].model in t.usage)
    && (forall i :: 0 <= i < |t.logs| ==> Running(t.logs[i]) == Tally(CounterOf(t.logs[i]), t.logs[..i + 1], t.logs[i].model))
  }

  lemma TallySnoc(c: Counter, logs: seq<LogEntry>, e: LogEntry, k: Key)
    ensures Tally(c, logs + [e], k) == Tally(c, logs, k) + (if e.model == k then Delta(c, e) else 0)
  {
  }

  /** Appending one entry whose running figure is the new tally keeps a
      consistent tracker consistent, given the counters moved by that entry. */
  lemma AppendKeepsConsistent(t: Tracker, t': Tracker, e: LogEntry)
    requires Consistent(t) && Valid(t')
    requires t'.logs == t.logs + [e]
    requires e.model in t'.usage && t.usage.Keys <= t'.usage.Keys
    requires forall c, k :: Count(c, t'.usage, k) == Count(c, t.usage, k) + (if e.model == k then Delta(c, e) else 0)
    requires Running(e) == Count(CounterOf(e), t'.usage, e.model)
    ensures Consistent(t')
  {
    forall c, k ensures Count(c, t'.usage, k) == Tally(c, t'.logs, k) {
      TallySnoc(c, t.logs, e, k);
    }
    forall i | 0 <= i < |t'.logs|
      ensures Running(t'.logs[i]) == Tally(CounterOf(t'.logs[i]), t'.logs[..i + 1], t'.logs[i].model)
    {
      if i < |t.logs| {
        assert t'.logs[..i + 1] == t.logs[..i + 1];
      } else {
        assert t'.logs[..i + 1] == t'.logs;
      }
    }
  }

  lemma StartKeepsConsistent(t: Tracker, serialized: Option<map<string, Value>>, prompts: seq<string>, kwargs: map<string, Value>)
    requires Consistent(t)
    ensures Consistent(Start(t, serialized, prompts, kwargs).tracker)
  {
    var o := Start(t, serialized, prompts, kwargs);
    if o.raised.None? {
      var k := KeyOf(ExtractModelName(serialized, kwargs).value).value;
      var e := o.tracker.logs[|o.tracker.logs| - 1];
      assert e.model == k;
      AppendKeepsConsistent(t, o.tracker, e);
    }
  }

  lemma EndKeepsConsistent(t: Tracker, response: LlmResult)
    requires Consistent(t)
    ensures Consistent(End(t, response).tracker)
  {
    var o := End(t, response);
    if o.raised.None? {
      var k := KeyOf(ResolveEnd(t.current, response).value.name).value;
      var e := o.tracker.logs[|o.tracker.logs| - 1];
      assert e.model == k;
      AppendKeepsConsistent(t, o.tracker, e);
    }
  }

  lemma ResetConsistent(t: Tracker)
    ensures Consistent(Reset(t))
  {
  }

  /** Every tracker reachable through callbacks keeps the ledger. */
  lemma {:induction false} RunConsistent(events: seq<Event>)
    ensures Consistent(Run(events))
  {
    if |events| > 0 {
      var t := Run(events[..|events| - 1]);
      RunConsistent(events[..|events| - 1]);
      match events[|events| - 1]
      case LlmStart(s, p, kw) => StartKeepsConsistent(t, s, p, kw);
      case LlmEnd(r) => EndKeepsConsistent(t, r);
      case ResetAll => ResetConsistent(t);
    }
  }

  /** An `on_llm_end` whose response names no model of its own credits its
      tokens to the model the preceding `on_llm_start` counted. */
  lemma EndCreditsStartedModel(t: Tracker, serialized: Option<map<string, Value>>, prompts: seq<string>,
                               kwargs: map<string, Value>, response: LlmResult)
    requires Start(t, serialized, prompts, kwargs).raised.None?
    requires !(Present(response.llmOutput) && "model_name" in response.llmOutput.value)
    requires NoneNames(Flatten(response.generations))
    ensures var k := KeyOf(ExtractModelName(serialized, kwargs).value).value;
      var o := End(Start(t, serialized, prompts, kwargs).tracker, response);
      o.raised.None? ==>
        && o.tracker.logs[|o.tracker.logs| - 1].model == k
        && o.tracker.usage[k].numApiCalls == Count(Calls, t.usage, k) + 1
  {
    var name := ExtractModelName(serialized, kwargs).value;
    NameFromOutput(name, response);
  }
}

=== FILE: model_name.dfy ===
/** `ModelUsageTracker._extract_model_name`: six lookups tried in a fixed order,
    the first truthy one wins, `"unknown_model"` otherwise. */
module ModelName {
  import opened Wrappers
  import opened PyValue

  const UnknownModel: Value := Str("unknown_model")

  /** `serialized` is truthy: present and non-empty. */
  predicate Present(m: Option<map<string, Value>>) {
    m.Some? && |m.value| > 0
  }

  /** Lookups 1-4, all inside `serialized` (usage_tracker.py:298-313). */
  function FromSerialized(s: map<string, Value>): Result<Value, PyError> {
    var inner := Lookup(s, "kwargs", EmptyDict);
    var model :- Get(inner, "model", Null);
    var name :- if Truthy(model) then Ok(model) else Get(inner, "model_name", Null);
    var name := if Truthy(name) then name else Lookup(s, "name", Null);
    if Truthy(name) then Ok(name)
    else
      var ids := Lookup(s, "id", List([]));
      if Truthy(ids) then LastItem(ids) else Ok(name)
  }

  /** The name `on_llm_start` credits, or the exception the lookups raise. */
  function ExtractModelName(serialized: Option<map<string, Value>>, kwargs: map<string, Value>): (r: Result<Value, PyError>)
    ensures r.Ok? ==> Truthy(r.value)
    ensures r.Ok? && r.value.Str? ==> |r.value.s| > 0
  {
    var name :- if Present(serialized) then FromSerialized(serialized.value) else Ok(Null);
    var name :- if Truthy(name) then Ok(name) else Get(Lookup(kwargs, "invocation_params", EmptyDict), "model", Null);
    var name := if Truthy(name) then name else Lookup(kwargs, "model_name", Null);
    Ok(if Truthy(name) then name else UnknownModel)
  }

  /** A lookup the search moves past: it succeeded with a falsy value. */
  predicate Skipped(x: Result<Value, PyError>) {
    x.Ok? && !Truthy(x.value)
  }

  /** The six lookups as independent computations, in search order. A lookup
      inside an absent or empty `serialized` finds nothing. */
  function Lookups(serialized: Option<map<string, Value>>, kwargs: map<string, Value>): seq<Result<Value, PyError>>
  {
    var s := if Present(serialized) then serialized.value else map[];
    var inner := Lookup(s, "kwargs", EmptyDict);
    var ids := Lookup(s, "id", List([]));
    [ if Present(serialized) then Get(inner, "model", Null) else Ok(Null),
      if Present(serialized) then Get(inner, "model_name", Null) else Ok(Null),
      Ok(Lookup(s, "name", Null)),
      if Truthy(ids) then LastItem(ids) else Ok(Null),
      Get(Lookup(kwargs, "invocation_params", EmptyDict), "model", Null),
      Ok(Lookup(kwargs, "model_name", Null)) ]
  }

  /** The reference search: the first lookup that raised or found a truthy
      value decides; if every lookup is skipped the default is returned. */
  function FirstTruthy(rs: seq<Result<Value, PyError>>): (r: Result<Value, PyError>)
    ensures (forall j :: 0 <= j < |rs| ==> Skipped(rs[j])) ==> r == Ok(UnknownModel)
    ensures forall i :: 0 <= i < |rs| && !Skipped(rs[i]) && (forall j :: 0 <= j < i ==> Skipped(rs[j])) ==> r == rs[i]
    ensures r == Ok(UnknownModel) || exists i :: 0 <= i < |rs| && r == rs[i] && !Skipped(rs[i])
  {
    if |rs| == 0 then Ok(UnknownModel)
    else if !Skipped(rs[0]) then rs[0]
    else
      var r := FirstTruthy(rs[1..]);
      assert forall i :: 1 <= i < |rs| ==> rs[i] == rs[1..][i - 1];
      r
  }

  /** One step of the reference search. */
  lemma FirstTruthyStep(rs: seq<Result<Value, PyError>>)
    requires |rs| > 0
    ensures !Skipped(rs[0]) ==> FirstTruthy(rs) == rs[0]
    ensures Skipped(rs[0]) ==> FirstTruthy(rs) == FirstTruthy(rs[1..])
  {
  }

  /** The four lookups inside `serialized` decide the search exactly when one of them is not skipped. */
  lemma SerializedPart(serialized: Option<map<string, Value>>, kwargs: map<string, Value>)
    requires Present(serialized)
    ensures var rs := Lookups(serialized, kwargs);
      var r := FromSerialized(serialized.value);
      if Skipped(r) then Skipped(rs[0]) && Skipped(rs[1]) && Skipped(rs[2]) && Skipped(rs[3])
      else r == FirstTruthy(rs)
  {
    var rs := Lookups(serialized, kwargs);
    FirstTruthyStep(rs);
    FirstTruthyStep(rs[1..]);
    FirstTruthyStep(rs[2..]);
    FirstTruthyStep(rs[3..]);
    assert rs[1..][1..] == rs[2..] && rs[2..][1..] == rs[3..];
  }

  /** Once the lookups inside `serialized` are all skipped, the two `kwargs` lookups decide. */
  lemma KwargsPart(serialized: Option<map<string, Value>>, kwargs: map<string, Value>)
    ensures var rs := Lookups(serialized, kwargs);
      Skipped(rs[0]) && Skipped(rs[1]) && Skipped(rs[2]) && Skipped(rs[3]) ==>
        FirstTruthy(rs) == FirstTruthy(rs[4..])
  {
    var rs := Lookups(serialized, kwargs);
    FirstTruthyStep(rs);
    FirstTruthyStep(rs[1..]);
    FirstTruthyStep(rs[2..]);
    FirstTruthyStep(rs[3..]);
    assert rs[1..][1..] == rs[2..] && rs[2..][1..] == rs[3..] && rs[3..][1..] == rs[4..];
  }

  /** `_extract_model_name` is exactly the first-truthy search over the six lookups. */
  lemma ExtractIsFirstTruthy(serialized: Option<map<string, Value>>, kwargs: map<string, Value>)
    ensures ExtractModelName(serialized, kwargs) == FirstTruthy(Lookups(serialized, kwargs))
  {
    var rs := Lookups(serialized, kwargs);
    KwargsPart(serialized, kwargs);
    if Present(serialized) {
      SerializedPart(serialized, kwargs);
    }
    FirstTruthyStep(rs[4..]);
    FirstTruthyStep(rs[5..]);
    assert rs[4..][1..] == rs[5..];
    assert rs[5..][1..] == [];
  }
}

=== FILE: pyvalue.dfy ===
/** The slice of Python's value semantics the usage tracker relies on: the
    JSON-like payloads LangChain hands to callbacks, their truthiness, `== 0`,
    `+`, `dict.get`, `x[-1]`, and how a value behaves as a dict key. */
module PyValue {
  import opened Wrappers

  /** The exception a Python operation raises on an ill-typed operand. */
  datatype PyError =
    | AttributeError  // `.get` on something that is not a dict
    | KeyError        // `d[-1]` on a dict whose keys are strings
    | IndexError      // `xs[-1]` on an empty list or string
    | TypeError       // subscripting a scalar, `+` on mismatched operands, an unhashable dict key

  /** A JSON-like Python value; `Null` is `None`. Floats are not modelled. */
  datatype Value =
    | Null
    | Bool(b: bool)
    | Int(i: int)
    | Str(s: string)
    | List(items: seq<Value>)
    | Obj(fields: map<string, Value>)

  const EmptyDict: Value := Obj(map[])

  /** Python's `bool(v)`: None, False, 0 and empty containers are false. */
  predicate Truthy(v: Value) {
    match v
    case Null => false
    case Bool(b) => b
    case Int(i) => i != 0
    case Str(s) => |s| > 0
    case List(xs) => |xs| > 0
    case Obj(m) => |m| > 0
  }

  /** Python's `v == 0`: only numbers equal 0, and `False == 0` holds. */
  predicate IsZero(v: Value) {
    v == Int(0) || v == Bool(false)
  }

  /** The integer a value stands for in arithmetic (`bool` is a subclass of `int`). */
  function AsInt(v: Value): (r: Option<int>)
    ensures r.Some? <==> v.Int? || v.Bool?
    ensures r == Some(0) <==> IsZero(v)
  {
    match v
    case Bool(b) => Some(if b then 1 else 0)
    case Int(i) => Some(i)
    case _ => None
  }

  /** Python's `a + b`: numeric addition, string or list concatenation, else TypeError. */
  function Add(a: Value, b: Value): Result<Value, PyError>
  {
    if AsInt(a).Some? && AsInt(b).Some? then Ok(Int(AsInt(a).value + AsInt(b).value))
    else if a.Str? && b.Str? then Ok(Str(a.s + b.s))
    else if a.List? && b.List? then Ok(List(a.items + b.items))
    else Err(TypeError)
  }

  /** `m.get(key, default)` on a dict the caller knows to be a dict. */
  function Lookup(m: map<string, Value>, key: string, default: Value): Value {
    if key in m then m[key] else default
  }

  /** `d.get(key, default)` on an arbitrary value: raises unless `d` is a dict. */
  function Get(d: Value, key: string, default: Value): Result<Value, PyError>
  {
    match d
    case Obj(m) => Ok(Lookup(m, key, default))
    case _ => Err(AttributeError)
  }

  /** `v[-1]`: the last item of a list, the last character of a string. */
  function LastItem(v: Value): Result<Value, PyError>
  {
    match v
    case List(xs) => if |xs| == 0 then Err(IndexError) else Ok(xs[|xs| - 1])
    case Str(s) => if |s| == 0 then Err(IndexError) else Ok(Str([s[|s| - 1]]))
    case Obj(_) => Err(KeyError)
    case _ => Err(TypeError)
  }

  /** A dict key up to Python's key equality: `True` and `1` are the same key. */
  datatype Key = NoneKey | IntKey(i: int) | StrKey(s: string)

  /** The key a value stands for in a dict, or None when it is unhashable. */
  function KeyOf(v: Value): Option<Key>
  {
    match v
    case Null => Some(NoneKey)
    case Bool(b) => Some(IntKey(if b then 1 else 0))
    case Int(i) => Some(IntKey(i))
    case Str(s) => Some(StrKey(s))
    case _ => None
  }

  /** Every integer anywhere inside `v` is non-negative (token counts as providers report them). */
  predicate NoNegativeInts(v: Value) {
    match v
    case Int(i) => i >= 0
    case List(xs) => forall j :: 0 <= j < |xs| ==> NoNegativeInts(xs[j])
    case Obj(m) => forall k :: k in m ==> NoNegativeInts(m[k])
    case _ => true
  }
}

=== FILE: summary.dfy ===
/** `get_usage_report` and `get_summary`: the per-model report and the
    human-readable summary with its grand totals (usage_tracker.py:325-445). */
module Summary {
  import opened PyValue
  import opened Tracker
  import opened Ledger

  /** One line of the summary; rendering it as text is not modelled. */
  datatype Line =
    | Rule(c: char)            // "=" * 50 or "-" * 50
    | Title                    // "MODEL USAGE TRACKING REPORT"
    | Blank
    | NoData                   // "No usage data recorded yet."
    | ModelHeader(model: Key)  // "Model: ..."
    | CallsLine(n: int)        // "  • API Calls: ..."
    | TokensLine(n: int)       // "  • Total Tokens: ..."
    | TotalCallsLine(n: int)   // "TOTAL API Calls: ..."
    | TotalTokensLine(n: int)  // "TOTAL Tokens: ..."

  const Header: seq<Line> := [Rule('='), Title, Rule('='), Blank]

  /** `get_usage_report`: the counters of every model seen; under the ledger
      they are what the log records for that model. */
  function Report(t: Tracker): (r: map<Key, Usage>)
    ensures Valid(t) ==> forall k :: k in r <==> k in t.order
    ensures Consistent(t) ==> forall k :: k in r ==>
      r[k].numApiCalls == Tally(Calls, t.logs, k) && r[k].totalTokens == Tally(Tokens, t.logs, k)
  {
    t.usage
  }

  /** The four lines that describe one model. */
  function Block(k: Key, u: Usage): seq<Line> {
    [ModelHeader(k), CallsLine(u.numApiCalls), TokensLine(u.totalTokens), Blank]
  }

  /** The blocks of the models in `order`, in that order. */
  function Blocks(order: seq<Key>, usage: map<Key, Usage>): (r: seq<Line>)
    requires forall k :: k in order ==> k in usage
    ensures |r| == 4 * |order|
    ensures forall i :: 0 <= i < |order| ==> r[4 * i .. 4 * i + 4] == Block(order[i], usage[order[i]])
  {
    if |order| == 0 then []
    else Blocks(order[..|order| - 1], usage) + Block(order[|order| - 1], usage[order[|order| - 1]])
  }

  /** A counter summed over the models in `order`. */
  function UsageSum(c: Counter, order: seq<Key>, usage: map<Key, Usage>): int {
    if |order| == 0 then 0
    else UsageSum(c, order[..|order| - 1], usage) + Count(c, usage, order[|order| - 1])
  }

  /** `get_summary`, as the sequence of lines it joins. */
  method GetSummary(t: Tracker) returns (lines: seq<Line>)
    requires Valid(t)
    ensures |t.usage| == 0 ==> lines == Header + [NoData, Rule('=')]
    ensures |t.usage| > 0 ==>
      lines == Header + Blocks(t.order, t.usage)
               + [Rule('-'), TotalCallsLine(UsageSum(Calls, t.order, t.usage)),
                  TotalTokensLine(UsageSum(Tokens, t.order, t.usage)), Rule('=')]
  {
    var report := Report(t);
    lines := Header;
    if |report| == 0 {
      lines := lines + [NoData];
    } else {
      var totalCalls := 0;
      var totalTokens := 0;
      var i := 0;
      while i < |t.order|
        invariant 0 <= i <= |t.order|
        invariant lines == Header + Blocks(t.order[..i], report)
        invariant totalCalls == UsageSum(Calls, t.order[..i], report)
        invariant totalTokens == UsageSum(Tokens, t.order[..i], report)
      {
        var model := t.order[i];
        var stats := report[model];
        assert t.order[..i + 1][..i] == t.order[..i];
        lines := lines + Block(model, stats);
        totalCalls := totalCalls + stats.numApiCalls;
        totalTokens := totalTokens + stats.totalTokens;
        i := i + 1;
      }
      assert t.order[..i] == t.order;
      lines := lines + [Rule('-'), TotalCallsLine(totalCalls), TotalTokensLine(totalTokens)];
    }
    lines := lines + [Rule('=')];
  }

  /** Summing the ledger's tallies over the models in `order`. */
  function SumTallies(c: Counter, order: seq<Key>, logs: seq<LogEntry>): int {
    if |order| == 0 then 0
    else SumTallies(c, order[..|order| - 1], logs) + Tally(c, logs, order[|order| - 1])
  }

  lemma {:induction false} UsageSumIsSumTallies(c: Counter, order: seq<Key>, usage: map<Key, Usage>, logs: seq<LogEntry>)
    requires forall k :: Count(c, usage, k) == Tally(c, logs, k)
    ensures UsageSum(c, order, usage) == SumTallies(c, order, logs)
  {
    if |order| > 0 {
      UsageSumIsSumTallies(c, order[..|order| - 1], usage, logs);
    }
  }

  /** One more log entry adds its delta to the sum exactly once when its
      model is listed. */
  lemma {:induction false} SumTalliesSnoc(c: Counter, order: seq<Key>, logs: seq<LogEntry>, e: LogEntry)
    requires Distinct(order)
    ensures SumTallies(c, order, logs + [e]) == SumTallies(c, order, logs) + (if e.model in order then Delta(c, e) else 0)
  {
    if |order| > 0 {
      var prefix := order[..|order| - 1];
      assert order == prefix + [order[|order| - 1]];
      assert e.model in order <==> e.model in prefix || e.model == order[|order| - 1];
      SumTalliesSnoc(c, prefix, logs, e);
      TallySnoc(c, logs, e, order[|order| - 1]);
    }
  }

  lemma {:induction false} SumTalliesOfNoLog(c: Counter, order: seq<Key>)
    ensures SumTallies(c, order, []) == 0
  {
    if |order| > 0 {
      SumTalliesOfNoLog(c, order[..|order| - 1]);
    }
  }

  lemma {:induction false} SumTalliesIsGrand(c: Counter, order: seq<Key>, logs: seq<LogEntry>)
    requires Distinct(order)
    requires forall i :: 0 <= i < |logs| ==> logs[i].model in order
    ensures SumTallies(c, order, logs) == GrandTally(c, logs)
  {
    if |logs| > 0 {
      var prefix := logs[..|logs| - 1];
      assert logs == prefix + [logs[|logs| - 1]];
      SumTalliesIsGrand(c, order, prefix);
      SumTalliesSnoc(c, order, prefix, logs[|logs| - 1]);
    } else {
      SumTalliesOfNoLog(c, order);
    }
  }

  /** The summary's TOTAL lines count every `llm_start` entry of the log and
      add up the tokens of every `llm_end` entry. */
  lemma TotalsMatchLog(t: Tracker)
    requires Consistent(t)
    ensures UsageSum(Calls, t.order, t.usage) == GrandTally(Calls, t.logs)
    ensures UsageSum(Tokens, t.order, t.usage) == GrandTally(Tokens, t.logs)
  {
    UsageSumIsSumTallies(Calls, t.order, t.usage, t.logs);
    UsageSumIsSumTallies(Tokens, t.order, t.usage, t.logs);
    SumTalliesIsGrand(Calls, t.order, t.logs);
    SumTalliesIsGrand(Tokens, t.order, t.logs);
  }

  /** After any run of callbacks, the summary's totals agree with the log. */
  lemma RunTotalsMatchLog(events: seq<Event>)
    ensures var t := Run(events);
      UsageSum(Calls, t.order, t.usage) == GrandTally(Calls, t.logs) &&
      UsageSum(Tokens, t.order, t.usage) == GrandTally(Tokens, t.logs)
  {
    RunConsistent(events);
    TotalsMatchLog(Run(events));
  }
}

=== FILE: token_precedence.dfy ===
/** The precedence `on_llm_end` gives its token sources, the model name it
    credits, and the lower bound on the tokens it adds. */
module TokenPrecedence {
  import opened Wrappers
  import opened PyValue
  import opened ModelName
  import opened TokenUsage

  /** A generation that settles the count while the running total is still
      zero: its `usage_metadata` raised or summed to something non-zero. */
  predicate Decides(g: Generation) {
    && InfoPresent(g)
    && GenTokens(g.info.value).Some?
    && (GenTokens(g.info.value).value.Err? || !IsZero(GenTokens(g.info.value).value.value))
  }

  /** A generation whose `generation_info` names a model. */
  predicate NamesModel(g: Generation) {
    InfoPresent(g) && "model_name" in g.info.value
  }

  /** No generation decides the count. */
  predicate NoneDecides(gs: seq<Generation>) {
    forall j :: 0 <= j < |gs| ==> !Decides(gs[j])
  }

  /** No generation names a model in its info. */
  predicate NoneNames(gs: seq<Generation>) {
    forall j :: 0 <= j < |gs| ==> !NamesModel(gs[j])
  }

  /** Once the total is non-zero, later generations only contribute text. */
  lemma {:induction false} ScanSettled(st: Scan, gs: seq<Generation>)
    requires !IsZero(st.tokens)
    ensures ScanAll(st, gs) == Ok(Scan(st.name, st.tokens, st.text + Texts(gs)))
    decreases |gs|
  {
    if |gs| == 0 {
      assert st.text + Texts(gs) == st.text;
    } else {
      var st' := Scan(st.name, st.tokens, st.text + GenText(gs[0]));
      assert StepGeneration(st, gs[0]) == Ok(st');
      assert ScanAll(st, gs) == ScanAll(st', gs[1..]);
      ScanSettled(st', gs[1..]);
      assert st'.text + Texts(gs[1..]) == st.text + Texts(gs);
    }
  }

  /** While no generation decides, the scan stays at zero, and the name changes
      only to one that a generation's info names. */
  lemma {:induction false} ScanUndecided(st: Scan, gs: seq<Generation>)
    requires IsZero(st.tokens)
    requires NoneDecides(gs)
    ensures ScanAll(st, gs).Ok?
    ensures IsZero(ScanAll(st, gs).value.tokens)
    ensures ScanAll(st, gs).value.text == st.text + Texts(gs)
    ensures NoneNames(gs) ==> ScanAll(st, gs).value.name == st.name
    ensures ScanAll(st, gs).value.name == LastName(st.name, gs)
    decreases |gs|
  {
    ScanCreditsLastName(st, gs);
    if |gs| > 0 {
      var st' := StepGeneration(st, gs[0]).value;
      assert st'.text == st.text + GenText(gs[0]);
      assert !NamesModel(gs[0]) ==> st'.name == st.name;
      ScanUndecided(st', gs[1..]);
      assert st'.text + Texts(gs[1..]) == st.text + Texts(gs);
    }
  }

  /** The first deciding generation fixes the count, and the name when its
      info carries one. */
  lemma {:induction false} ScanDecided(st: Scan, gs: seq<Generation>, i: nat)
    requires IsZero(st.tokens)
    requires i < |gs| && Decides(gs[i])
    requires forall j :: 0 <= j < i ==> !Decides(gs[j])
    ensures var x := GenTokens(gs[i].info.value).value;
      && (ScanAll(st, gs).Ok? <==> x.Ok?)
      && (x.Ok? ==> ScanAll(st, gs).value.tokens == x.value)
      && (x.Ok? && NamesModel(gs[i]) ==> ScanAll(st, gs).value.name == gs[i].info.value["model_name"])
      && (x.Ok? ==> ScanAll(st, gs).value.name == LastName(st.name, gs))
      && (x.Err? ==> ScanAll(st, gs) == Err(x.error))
    decreases i
  {
    ScanCreditsLastName(st, gs);
    var x := GenTokens(gs[i].info.value).value;
    if i == 0 {
      if x.Ok? {
        var st' := StepGeneration(st, gs[0]).value;
        assert st'.tokens == x.value;
        ScanSettled(st', gs[1..]);
      }
    } else {
      var st' := StepGeneration(st, gs[0]).value;
      assert IsZero(st'.tokens);
      assert gs[1..][i - 1] == gs[i];
      ScanDecided(st', gs[1..], i - 1);
    }
  }

  /** The reference for the credited name: while the count is zero, every
      generation whose info names a model replaces the name, and the first
      deciding generation is the last one looked at. */
  function LastName(name: Value, gs: seq<Generation>): Value
    decreases |gs|
  {
    if |gs| == 0 then name
    else
      var name := if NamesModel(gs[0]) then gs[0].info.value["model_name"] else name;
      if Decides(gs[0]) then name else LastName(name, gs[1..])
  }

  /** From a zero count, the generation loop credits exactly `LastName`. */
  lemma {:induction false} ScanCreditsLastName(st: Scan, gs: seq<Generation>)
    requires IsZero(st.tokens)
    ensures ScanAll(st, gs).Ok? ==> ScanAll(st, gs).value.name == LastName(st.name, gs)
    decreases |gs|
  {
    if |gs| > 0 && StepGeneration(st, gs[0]).Ok? {
      var st' := StepGeneration(st, gs[0]).value;
      assert ScanAll(st, gs) == ScanAll(st', gs[1..]);
      if Decides(gs[0]) {
        ScanSettled(st', gs[1..]);
      } else {
        assert IsZero(st'.tokens);
        ScanCreditsLastName(st', gs[1..]);
      }
    }
  }

  /** When `llm_output` yields no tokens, the credited name is `LastName`
      starting from the `llm_output` stage's name. */
  lemma CreditedName(current: Value, response: LlmResult)
    requires FromLlmOutput(current, response.llmOutput).Ok?
    requires IsZero(FromLlmOutput(current, response.llmOutput).value.tokens)
    ensures ResolveEnd(current, response).Ok? ==>
      ResolveEnd(current, response).value.name == LastName(OutputName(current, response.llmOutput), Flatten(response.generations))
  {
    var head := FromLlmOutput(current, response.llmOutput).value;
    ScanCreditsLastName(Scan(head.name, head.tokens, ""), Flatten(response.generations));
  }

  /** With no `llm_output`, a generation whose info only names model "A" gets
      the 12-character text estimate (9 tokens) credited to "A". */
  lemma NamingGenerationWithoutUsage()
    ensures var g := Generation(Some("hello world!"), None, Some(map["model_name" := Str("A")]));
      ResolveEnd(Null, LlmResult(None, [[g]])) == Ok(Resolved(Str("A"), Int(9)))
  {
  }

  /** A non-zero Google `usage_metadata` count wins over every other source. */
  lemma GooglePrecedence(current: Value, response: LlmResult, t: Value)
    requires Present(response.llmOutput)
    requires Truthy(Lookup(response.llmOutput.value, "usage_metadata", EmptyDict))
    requires GoogleTokens(Lookup(response.llmOutput.value, "usage_metadata", EmptyDict)) == Ok(t)
    requires !IsZero(t)
    ensures ResolveEnd(current, response) == Ok(Resolved(OutputName(current, response.llmOutput), t))
  {
    var name := OutputName(current, response.llmOutput);
    assert FromLlmOutput(current, response.llmOutput) == Ok(Resolved(name, t));
    ScanSettled(Scan(name, t, ""), Flatten(response.generations));
  }

  /** OpenAI `token_usage` is used only when the Google metadata is falsy or
      sums to zero; a non-zero count from it then wins over the generations. */
  lemma OpenAiPrecedence(current: Value, response: LlmResult, t: Value)
    requires Present(response.llmOutput)
    requires var um := Lookup(response.llmOutput.value, "usage_metadata", EmptyDict);
      !Truthy(um) || (GoogleTokens(um).Ok? && IsZero(GoogleTokens(um).value))
    requires Truthy(Lookup(response.llmOutput.value, "token_usage", EmptyDict))
    requires OpenAiTokens(Lookup(response.llmOutput.value, "token_usage", EmptyDict)) == Ok(t)
    requires !IsZero(t)
    ensures ResolveEnd(current, response) == Ok(Resolved(OutputName(current, response.llmOutput), t))
  {
    var name := OutputName(current, response.llmOutput);
    assert FromLlmOutput(current, response.llmOutput) == Ok(Resolved(name, t));
    ScanSettled(Scan(name, t, ""), Flatten(response.generations));
  }

  /** When `llm_output` yields no tokens, the first deciding generation's
      `usage_metadata` sets the count, and its info's model name is credited. */
  lemma GenerationPrecedence(current: Value, response: LlmResult, i: nat)
    requires FromLlmOutput(current, response.llmOutput).Ok?
    requires IsZero(FromLlmOutput(current, response.llmOutput).value.tokens)
    requires var gs := Flatten(response.generations);
      i < |gs| && Decides(gs[i]) && forall j :: 0 <= j < i ==> !Decides(gs[j])
    ensures var g := Flatten(response.generations)[i];
      var x := GenTokens(g.info.value).value;
      && (ResolveEnd(current, response).Ok? <==> x.Ok?)
      && (x.Ok? ==> ResolveEnd(current, response).value.tokens == x.value)
      && (x.Ok? && NamesModel(g) ==> ResolveEnd(current, response).value.name == g.info.value["model_name"])
      && (x.Ok? ==> ResolveEnd(current, response).value.name ==
                    LastName(OutputName(current, response.llmOutput), Flatten(response.generations)))
      && (x.Err? ==> ResolveEnd(current, response) == Err(x.error))
  {
    CreditedName(current, response);
    var h := FromLlmOutput(current, response.llmOutput).value;
    ScanDecided(Scan(h.name, h.tokens, ""), Flatten(response.generations), i);
  }

  /** With no token metadata anywhere, the count is three quarter-lengths of
      the concatenated text, or the floor of 500 when that is zero. */
  lemma TextEstimate(current: Value, response: LlmResult, head: Resolved)
    requires FromLlmOutput(current, response.llmOutput) == Ok(head) && IsZero(head.tokens)
    requires NoneDecides(Flatten(response.generations))
    ensures var n := |Texts(Flatten(response.generations))|;
      ResolveEnd(current, response).Ok? &&
      ResolveEnd(current, response).value.tokens == Int(if n / 4 == 0 then MinimumEstimate else 3 * (n / 4))
  {
    ScanUndecided(Scan(head.name, head.tokens, ""), Flatten(response.generations));
  }

  /** Only a generation whose info names a model can change the credited name. */
  lemma {:induction false} ScanKeepsName(st: Scan, gs: seq<Generation>)
    requires NoneNames(gs)
    ensures ScanAll(st, gs).Ok? ==> ScanAll(st, gs).value.name == st.name
    decreases |gs|
  {
    if |gs| > 0 && StepGeneration(st, gs[0]).Ok? {
      var st' := StepGeneration(st, gs[0]).value;
      assert st'.name == st.name;
      ScanKeepsName(st', gs[1..]);
    }
  }

  /** Unless a generation's info names a model, the credited name is the
      current model (or `"unknown_model"`) overridden by `llm_output["model_name"]`. */
  lemma NameFromOutput(current: Value, response: LlmResult)
    requires NoneNames(Flatten(response.generations))
    ensures ResolveEnd(current, response).Ok? ==>
      ResolveEnd(current, response).value.name == OutputName(current, response.llmOutput)
  {
    var head := FromLlmOutput(current, response.llmOutput);
    if head.Ok? {
      ScanKeepsName(Scan(head.value.name, head.value.tokens, ""), Flatten(response.generations));
    }
  }

  /** Every count the response carries is non-negative. */
  predicate NoNegativeCounts(response: LlmResult) {
    && (response.llmOutput.Some? ==> NoNegativeInts(Obj(response.llmOutput.value)))
    && InfosNonNegative(Flatten(response.generations))
  }

  predicate InfosNonNegative(gs: seq<Generation>) {
    forall j :: 0 <= j < |gs| && gs[j].info.Some? ==> NoNegativeInts(Obj(gs[j].info.value))
  }

  lemma AddKeepsNoNegativeInts(a: Value, b: Value)
    requires NoNegativeInts(a) && NoNegativeInts(b) && Add(a, b).Ok?
    ensures NoNegativeInts(Add(a, b).value)
  {
  }

  lemma GoogleTokensNoNegative(um: Value)
    requires NoNegativeInts(um)
    ensures GoogleTokens(um).Ok? ==> NoNegativeInts(GoogleTokens(um).value)
  {
    forall a: Value, b: Value | NoNegativeInts(a) && NoNegativeInts(b) && Add(a, b).Ok?
      ensures NoNegativeInts(Add(a, b).value)
    {
      AddKeepsNoNegativeInts(a, b);
    }
  }

  lemma OpenAiTokensNoNegative(tu: Value)
    requires NoNegativeInts(tu)
    ensures OpenAiTokens(tu).Ok? ==> NoNegativeInts(OpenAiTokens(tu).value)
  {
  }

  lemma GenTokensNoNegative(info: map<string, Value>)
    requires NoNegativeInts(Obj(info))
    ensures GenTokens(info).Some? && GenTokens(info).value.Ok? ==> NoNegativeInts(GenTokens(info).value.value)
  {
    forall a: Value, b: Value | NoNegativeInts(a) && NoNegativeInts(b) && Add(a, b).Ok?
      ensures NoNegativeInts(Add(a, b).value)
    {
      AddKeepsNoNegativeInts(a, b);
    }
  }

  lemma {:induction false} ScanNoNegative(st: Scan, gs: seq<Generation>)
    requires NoNegativeInts(st.tokens) && InfosNonNegative(gs)
    ensures ScanAll(st, gs).Ok? ==> NoNegativeInts(ScanAll(st, gs).value.tokens)
    decreases |gs|
  {
    if |gs| > 0 && StepGeneration(st, gs[0]).Ok? {
      if gs[0].info.Some? {
        GenTokensNoNegative(gs[0].info.value);
      }
      var st' := StepGeneration(st, gs[0]).value;
      assert InfosNonNegative(gs[1..]) by {
        forall j | 0 <= j < |gs[1..]| && gs[1..][j].info.Some?
          ensures NoNegativeInts(Obj(gs[1..][j].info.value))
        {
          assert gs[1..][j] == gs[j + 1];
        }
      }
      ScanNoNegative(st', gs[1..]);
    }
  }

  /** With non-negative counts in the response, the tokens `on_llm_end` adds
      are at least 1 whenever they are a number. */
  lemma PositiveTokens(current: Value, response: LlmResult)
    requires NoNegativeCounts(response)
    ensures ResolveEnd(current, response).Ok? && AsInt(ResolveEnd(current, response).value.tokens).Some? ==>
      AsInt(ResolveEnd(current, response).value.tokens).value >= 1
  {
    var r := ResolveEnd(current, response);
    var head := FromLlmOutput(current, response.llmOutput);
    if r.Ok? {
      assert head.Ok?;
      if Present(response.llmOutput) {
        var out := response.llmOutput.value;
        var um := Lookup(out, "usage_metadata", EmptyDict);
        var tu := Lookup(out, "token_usage", EmptyDict);
        GoogleTokensNoNegative(um);
        OpenAiTokensNoNegative(tu);
      }
      assert NoNegativeInts(head.value.tokens);
      var st := ScanAll(Scan(head.value.name, head.value.tokens, ""), Flatten(response.generations));
      ScanNoNegative(Scan(head.value.name, head.value.tokens, ""), Flatten(response.generations));
      assert st.Ok?;
    }
  }
}

=== FILE: token_usage.dfy ===
/** How `ModelUsageTracker.on_llm_end` settles on a model name and a token
    count before it touches the tracker (usage_tracker.py:177-250). */
module TokenUsage {
  import opened Wrappers
  import opened PyValue
  import opened ModelName

  /** The fallback when no source reports or lets us estimate any tokens. */
  const MinimumEstimate: int := 500

  /** One LangChain generation: `text`, `message.content` and `generation_info`
      may each be missing. */
  datatype Generation = Generation(
    text: Option<string>,
    content: Option<string>,
    info: Option<map<string, Value>>)

  /** An `LLMResult`: the provider's `llm_output` and one list of generations per prompt. */
  datatype LlmResult = LlmResult(llmOutput: Option<map<string, Value>>, generations: seq<seq<Generation>>)

  /** What `on_llm_end` has settled on just before it updates the tracker. */
  datatype Resolved = Resolved(name: Value, tokens: Value)

  /** Google `usage_metadata`: input plus output count, each with an alternative
      key, else the reported total (usage_tracker.py:191-202). */
  function GoogleTokens(um: Value): Result<Value, PyError> {
    var input :- Get(um, "input_token_count", Int(0));
    var output :- Get(um, "candidates_token_count", Int(0));
    var input :- if IsZero(input) then Get(um, "prompt_token_count", Int(0)) else Ok(input);
    var output :- if IsZero(output) then Get(um, "output_token_count", Int(0)) else Ok(output);
    var total :- Add(input, output);
    if IsZero(total) then Get(um, "total_token_count", Int(0)) else Ok(total)
  }

  /** OpenAI `token_usage`: the reported total, else prompt plus completion
      (usage_tracker.py:208-213). */
  function OpenAiTokens(tu: Value): Result<Value, PyError> {
    var total :- Get(tu, "total_tokens", Int(0));
    if IsZero(total) then
      var prompt :- Get(tu, "prompt_tokens", Int(0));
      var completion :- Get(tu, "completion_tokens", Int(0));
      Add(prompt, completion)
    else Ok(total)
  }

  /** The name credited before any generation is looked at: the current model
      (or `"unknown_model"`), overridden by `llm_output["model_name"]`. */
  function OutputName(current: Value, llmOutput: Option<map<string, Value>>): Value {
    if Present(llmOutput) && "model_name" in llmOutput.value then llmOutput.value["model_name"]
    else if Truthy(current) then current
    else UnknownModel
  }

  /** The `llm_output` stage (usage_tracker.py:178-213). */
  function FromLlmOutput(current: Value, llmOutput: Option<map<string, Value>>): (r: Result<Resolved, PyError>)
    // the credited name
    ensures Present(llmOutput) && "model_name" in llmOutput.value ==>
      r.Ok? ==> r.value.name == llmOutput.value["model_name"]
    ensures !(Present(llmOutput) && "model_name" in llmOutput.value) && Truthy(current) ==>
      r.Ok? ==> r.value.name == current
    ensures !(Present(llmOutput) && "model_name" in llmOutput.value) && !Truthy(current) ==>
      r.Ok? ==> r.value.name == UnknownModel
    // no `llm_output`: nothing found yet
    ensures !Present(llmOutput) ==> r.Ok? && IsZero(r.value.tokens)
    // Google `usage_metadata` first
    ensures Present(llmOutput) ==>
      var um := Lookup(llmOutput.value, "usage_metadata", EmptyDict);
      && (Truthy(um) && GoogleTokens(um).Err? ==> r == Err(GoogleTokens(um).error))
      && (Truthy(um) && GoogleTokens(um).Ok? && !IsZero(GoogleTokens(um).value) ==>
            r.Ok? && r.value.tokens == GoogleTokens(um).value)
    // then OpenAI `token_usage`, only while the count is still zero
    ensures Present(llmOutput) ==>
      var um := Lookup(llmOutput.value, "usage_metadata", EmptyDict);
      var tu := Lookup(llmOutput.value, "token_usage", EmptyDict);
      (!Truthy(um) || (GoogleTokens(um).Ok? && IsZero(GoogleTokens(um).value))) ==>
        && (Truthy(tu) && OpenAiTokens(tu).Err? ==> r == Err(OpenAiTokens(tu).error))
        && (Truthy(tu) && OpenAiTokens(tu).Ok? ==> r.Ok? && r.value.tokens == OpenAiTokens(tu).value)
        && (!Truthy(tu) ==> r.Ok? && IsZero(r.value.tokens))
  {
    var name := OutputName(current, llmOutput);
    if !Present(llmOutput) then Ok(Resolved(name, Int(0)))
    else
      var out := llmOutput.value;
      var um := Lookup(out, "usage_metadata", EmptyDict);
      var tokens :- if Truthy(um) then GoogleTokens(um) else Ok(Int(0));
      var tu := Lookup(out, "token_usage", EmptyDict);
      var tokens :- if IsZero(tokens) && Truthy(tu) then OpenAiTokens(tu) else Ok(tokens);
      Ok(Resolved(name, tokens))
  }

  /** All generations of all prompts, in the order the nested loops visit them. */
  function Flatten(gss: seq<seq<Generation>>): seq<Generation> {
    if |gss| == 0 then [] else gss[0] + Flatten(gss[1..])
  }

  /** How many generations the prompts before prompt `p` hold. */
  function Offset(gss: seq<seq<Generation>>, p: nat): nat
    requires p <= |gss|
    decreases p
  {
    if p == 0 then 0 else |gss[0]| + Offset(gss[1..], p - 1)
  }

  /** The flattening visits prompt by prompt, and within a prompt generation
      by generation: the outer loop over prompts, the inner over generations. */
  lemma {:induction false} FlattenIndex(gss: seq<seq<Generation>>, p: nat, j: nat)
    requires p < |gss| && j < |gss[p]|
    ensures Offset(gss, p) + j < |Flatten(gss)|
    ensures Flatten(gss)[Offset(gss, p) + j] == gss[p][j]
    decreases p
  {
    if p > 0 {
      assert gss[1..][p - 1] == gss[p];
      FlattenIndex(gss[1..], p - 1, j);
    }
  }

  /** The text a generation contributes to the length estimate. */
  function GenText(g: Generation): string {
    if g.text.Some? then g.text.value
    else if g.content.Some? then g.content.value
    else ""
  }

  function Texts(gs: seq<Generation>): string {
    if |gs| == 0 then "" else GenText(gs[0]) + Texts(gs[1..])
  }

  /** `generation_info` is truthy. */
  predicate InfoPresent(g: Generation) {
    Present(g.info)
  }

  /** The tokens a generation's `usage_metadata` reports, each count with an
      alternative key under `or` (usage_tracker.py:231-235); None when that
      metadata is falsy. */
  function GenTokens(info: map<string, Value>): Option<Result<Value, PyError>> {
    var usage := Lookup(info, "usage_metadata", EmptyDict);
    if !Truthy(usage) then None
    else
      Some(
        var input :- Get(usage, "input_tokens", Int(0));
        var input :- if Truthy(input) then Ok(input) else Get(usage, "input_token_count", Int(0));
        var output :- Get(usage, "output_tokens", Int(0));
        var output :- if Truthy(output) then Ok(output) else Get(usage, "candidates_token_count", Int(0));
        Add(input, output))
  }

  /** The running state of the generation loop. */
  datatype Scan = Scan(name: Value, tokens: Value, text: string)

  /** One iteration of the inner loop (usage_tracker.py:219-235). */
  function StepGeneration(st: Scan, g: Generation): Result<Scan, PyError> {
    var text := st.text + GenText(g);
    if IsZero(st.tokens) && InfoPresent(g) then
      var info := g.info.value;
      var name := if "model_name" in info then info["model_name"] else st.name;
      var tokens :- match GenTokens(info) case None => Ok(st.tokens) case Some(t) => t;
      Ok(Scan(name, tokens, text))
    else Ok(Scan(st.name, st.tokens, text))
  }

  /** The nested generation loop over the flattened generations. */
  function ScanAll(st: Scan, gs: seq<Generation>): Result<Scan, PyError>
    decreases |gs|
  {
    if |gs| == 0 then Ok(st)
    else
      var st' :- StepGeneration(st, gs[0]);
      ScanAll(st', gs[1..])
  }

  /** The length estimate and the hard floor (usage_tracker.py:240-249). */
  function Estimate(tokens: Value, text: string): (r: Value)
    ensures !IsZero(r)
    ensures !IsZero(tokens) ==> r == tokens
    ensures IsZero(tokens) && 3 * (|text| / 4) > 0 ==> r == Int(3 * (|text| / 4))
    ensures IsZero(tokens) && |text| < 4 ==> r == Int(MinimumEstimate)
  {
    var tokens := if IsZero(tokens) && |text| > 0 then Int(|text| / 4 * 2 + |text| / 4) else tokens;
    if IsZero(tokens) then Int(MinimumEstimate) else tokens
  }

  /** Everything `on_llm_end` computes before it updates the tracker. */
  function ResolveEnd(current: Value, response: LlmResult): (r: Result<Resolved, PyError>)
    ensures r.Ok? ==> !IsZero(r.value.tokens)
  {
    var head :- FromLlmOutput(current, response.llmOutput);
    var st :- ScanAll(Scan(head.name, head.tokens, ""), Flatten(response.generations));
    Ok(Resolved(st.name, Estimate(st.tokens, st.text)))
  }
}

=== FILE: tracker.dfy ===
/** `ModelUsageTracker` as a value: per-model counters kept in insertion
    order, the event log, and the "current model" slot, with the callbacks
    `on_llm_start`, `on_llm_end` and `reset` as pure transitions. */
module Tracker {
  import opened Wrappers
  import opened PyValue
  import opened ModelName
  import opened TokenUsage

  /** One entry of `usage_data`. */
  datatype Usage = Usage(numApiCalls: nat, totalTokens: int)

  /** One entry of `call_logs`, without its timestamp. */
  datatype LogEntry =
    | StartLog(model: Key, promptCount: nat, apiCallNumber: nat)
    | EndLog(model: Key, tokensThisCall: int, totalTokensSoFar: int)

  /** `usage` and `order` together are the insertion-ordered dict `usage_data`;
      `current` is `_current_model`, `Null` when unset. */
  datatype Tracker = Tracker(usage: map<Key, Usage>, order: seq<Key>, logs: seq<LogEntry>, current: Value)

  /** The tracker after a callback, and the exception it raised, if any. A
      callback that raises keeps whatever it changed before raising. */
  datatype Outcome = Outcome(tracker: Tracker, raised: Option<PyError>)

  /** A freshly constructed tracker. */
  const Fresh: Tracker := Tracker(map[], [], [], Null)

  /** The two counters of a `usage_data` entry. */
  datatype Counter = Calls | Tokens

  function Field(c: Counter, u: Usage): int {
    match c
    case Calls => u.numApiCalls
    case Tokens => u.totalTokens
  }

  /** A model's counter, 0 for a model without an entry. */
  function Count(c: Counter, usage: map<Key, Usage>, k: Key): int {
    if k in usage then Field(c, usage[k]) else 0
  }

  predicate Distinct(order: seq<Key>) {
    forall i, j :: 0 <= i < j < |order| ==> order[i] != order[j]
  }

  /** `order` lists each key of `usage` exactly once. */
  ghost predicate Valid(t: Tracker) {
    && Distinct(t.order)
    && forall k :: k in t.usage <==> k in t.order
  }

  /** Every entry other than `k`'s is the same in both maps. */
  ghost predicate OthersUnchanged(before: map<Key, Usage>, after: map<Key, Usage>, k: Key) {
    forall k' :: k' != k ==> (k' in before <==> k' in after) && (k' in before ==> before[k'] == after[k'])
  }

  /** `_ensure_model_entry` (usage_tracker.py:107-111). */
  function EnsureEntry(t: Tracker, k: Key): (r: Tracker)
    ensures k in r.usage
    ensures k in t.usage ==> r == t
    ensures k !in t.usage ==> r.usage[k] == Usage(0, 0) && r.order == t.order + [k]
    ensures OthersUnchanged(t.usage, r.usage, k)
    ensures r.logs == t.logs && r.current == t.current
    ensures Valid(t) ==> Valid(r)
  {
    if k in t.usage then t
    else t.(usage := t.usage[k := Usage(0, 0)], order := t.order + [k])
  }

  /** `on_llm_start` (usage_tracker.py:138-156). */
  function Start(t: Tracker, serialized: Option<map<string, Value>>, prompts: seq<string>, kwargs: map<string, Value>): (o: Outcome)
    ensures ExtractModelName(serialized, kwargs).Err? ==>
      o == Outcome(t, Some(ExtractModelName(serialized, kwargs).error))
    ensures ExtractModelName(serialized, kwargs).Ok? ==>
      var name := ExtractModelName(serialized, kwargs).value;
      && o.tracker.current == name
      && (KeyOf(name).None? ==> o == Outcome(t.(current := name), Some(TypeError)))
      && (KeyOf(name).Some? ==>
            var k := KeyOf(name).value;
            && o.raised.None?
            && k in o.tracker.usage
            && o.tracker.usage[k] == Usage(Count(Calls, t.usage, k) + 1, Count(Tokens, t.usage, k))
            && OthersUnchanged(t.usage, o.tracker.usage, k)
            && o.tracker.order == EnsureEntry(t, k).order
            && o.tracker.logs == t.logs + [StartLog(k, |prompts|, o.tracker.usage[k].numApiCalls)])
    ensures Valid(t) ==> Valid(o.tracker)
  {
    match ExtractModelName(serialized, kwargs)
    case Err(e) => Outcome(t, Some(e))
    case Ok(name) =>
      var t := t.(current := name);
      match KeyOf(name)
      case None => Outcome(t, Some(TypeError))
      case Some(k) =>
        var t := EnsureEntry(t, k);
        var calls := t.usage[k].numApiCalls + 1;
        Outcome(t.(usage := t.usage[k := t.usage[k].(numApiCalls := calls)],
                   logs := t.logs + [StartLog(k, |prompts|, calls)]),
                None)
  }

  /** `on_llm_end` (usage_tracker.py:177-265). Call counts never change. */
  function End(t: Tracker, response: LlmResult): (o: Outcome)
    ensures o.tracker.current == t.current
    ensures forall k :: Count(Calls, o.tracker.usage, k) == Count(Calls, t.usage, k)
    ensures ResolveEnd(t.current, response).Err? ==>
      o == Outcome(t, Some(ResolveEnd(t.current, response).error))
    ensures ResolveEnd(t.current, response).Ok? ==>
      var res := ResolveEnd(t.current, response).value;
      && (KeyOf(res.name).None? ==> o == Outcome(t, Some(TypeError)))
      && (KeyOf(res.name).Some? && AsInt(res.tokens).None? ==>
            o == Outcome(EnsureEntry(t, KeyOf(res.name).value), Some(TypeError)))
      && (KeyOf(res.name).Some? && AsInt(res.tokens).Some? ==>
            var k := KeyOf(res.name).value;
            var total := Count(Tokens, t.usage, k) + AsInt(res.tokens).value;
            && o.raised.None?
            && k in o.tracker.usage
            && o.tracker.usage[k].totalTokens == total
            && OthersUnchanged(t.usage, o.tracker.usage, k)
            && o.tracker.order == EnsureEntry(t, k).order
            && o.tracker.logs == t.logs + [EndLog(k, AsInt(res.tokens).value, total)])
    ensures Valid(t) ==> Valid(o.tracker)
  {
    match ResolveEnd(t.current, response)
    case Err(e) => Outcome(t, Some(e))
    case Ok(res) =>
      match KeyOf(res.name)
      case None => Outcome(t, Some(TypeError))
      case Some(k) =>
        var t := EnsureEntry(t, k);
        match AsInt(res.tokens)
        case None => Outcome(t, Some(TypeError))
        case Some(n) =>
          var total := t.usage[k].totalTokens + n;
          Outcome(t.(usage := t.usage[k := t.usage[k].(totalTokens := total)],
                     logs := t.logs + [EndLog(k, n, total)]),
                  None)
  }

  /** `reset` (usage_tracker.py:402-405). */
  function Reset(t: Tracker): (r: Tracker)
    ensures r.usage == map[] && r.logs == [] && r.current == Null
    ensures Valid(r)
  {
    Fresh
  }

  /** The callbacks LangChain delivers to the tracker. */
  datatype Event =
    | LlmStart(serialized: Option<map<string, Value>>, prompts: seq<string>, kwargs: map<string, Value>)
    | LlmEnd(response: LlmResult)
    | ResetAll

  /** The tracker after one event. LangChain's callback manager swallows an
      exception a handler raises, so the run goes on from the partial state. */
  function Apply(t: Tracker, e: Event): Tracker {
    match e
    case LlmStart(s, p, kw) => Start(t, s, p, kw).tracker
    case LlmEnd(r) => End(t, r).tracker
    case ResetAll => Reset(t)
  }

  /** The tracker after a sequence of events, starting fresh. */
  function Run(events: seq<Event>): Tracker {
    if |events| == 0 then Fresh else Apply(Run(events[..|events| - 1]), events[|events| - 1])
  }
}

=== FILE: wrappers.dfy ===
/** Option and Result, usable with `:-`, for the Python lookups that may come up
    empty or raise. */
module Wrappers {

  datatype Option<+T> = None | Some(value: T)

  /** A computation that either produced a value or raised `error`. */
  datatype Result<+T, +E> = Ok(value: T) | Err(error: E) {

    predicate IsFailure() {
      Err?
    }

    function PropagateFailure<U>(): Result<U, E>
      requires Err?
    {
      Err(error)
    }

    function Extract(): T
      requires Ok?
    {
      value
    }
  }
}
